=== FILE: README.md ===
# SebEnv command line, modelled in Dafny

SebEnv is a small Node.js tool (`index.js`) that keeps a project's list of
required environment variables in the `envCheck` field of `package.json`.
It has three commands:

- `--add NAME...` merges names into `envCheck`.
- `--sync` merges the names assigned in `.env` into `envCheck`.
- With no arguments it checks that every tracked variable is set. It asks
  the operator for each missing value and appends the answers to `.env`
  as a commented block.

This project models that tool as pure functions over immutable data. It
proves the properties the tool's design relies on. The modules are:

- `Common`: `Option`, `Result`, the failure kinds, and the predicates
  "no duplicates" and "is a subsequence".
- `Text`: the parts of JavaScript's string library the tool uses. These
  are the `\s` class, `trim()`, `split` on one character and `join`.
- `ManifestStore`: the `envCheck` field with JavaScript truthiness, and
  the merge loop of `addEnvVars`.
- `EnvFile`: reading names from `.env` text, and writing the block a
  check appends.
- `Checker`: the missing-variable filter and the check flow.
- `Cli`: argument dispatch, and one whole invocation as a function from
  the files before to the exit status, the error and the files after.
- `Scenarios`: worked examples of the tool's behaviour, each stated for
  every input of its shape.

The program's effects appear as parameters:

- the contents of `package.json` and `.env` form a `World` value;
- the environment after `.env` is loaded is a `map<string, string>`;
- the operator's answer to each prompt is a function `reply`.

A check whose `package.json` cannot be imported exits 0. The import fails
inside the check's `try`/`catch` (index.js:79-118), which logs the error
and returns normally. `Cli.Run` returns exit status 0 together with the
error `ManifestUnreadable`.

## Model

| member | source | states |
|---|---|---|
| ManifestStore.Truthy | index.js:33 | `envCheck` is falsy exactly when it is absent, `null`, `false` or `0` (one case of the model), or the empty string. Arrays and every other value are truthy. |
| ManifestStore.Includes | index.js:39 | `includes` is true when the needle starts the text, the empty needle included, and false when the needle is longer than the text. |
| ManifestStore.Merge | index.js:38-42 | The old list is a prefix of the result. Every supplied name ends up in the result. Each appended element is a supplied name that was not already present, and no appended name appears twice. A duplicate-free list stays duplicate-free. |
| ManifestStore.MergePresent | index.js:38-42 | Merging names that are all already tracked leaves the list unchanged. |
| ManifestStore.MergeIdempotent | index.js:38-42 | Merging the same names a second time leaves the list unchanged. |
| ManifestStore.MergeConcat | index.js:38-42 | Merging `a` and then `b` gives the same list as merging `a + b` once. |
| ManifestStore.MergeFresh | index.js:38-42 | Names that are new and pairwise distinct are appended exactly as given, in order. |
| ManifestStore.AddEnvVars | index.js:29-46 | A falsy `envCheck` becomes the merge of the names into an empty array. An array becomes the merge of the names into it, so it keeps its old contents as a prefix and gains only new names. A truthy non-array whose `includes` finds every name is left as it was. Fields other than `envCheck` are untouched. The call fails exactly when `envCheck` is truthy but not an array and some name is not found by `includes`. |
| ManifestStore.AddEnvVarsIdempotent | index.js:29-46 | A successful `addEnvVars` repeated with the same names succeeds again and leaves the manifest as it was after the first call. |
| Text.HasWhiteSpace | index.js:74-76 | `hasWhiteSpace` holds exactly when some character of the value is in JavaScript's `\s` class. |
| Text.Trim | index.js:56 | `trim()` gives the empty string exactly when every character is whitespace. A non-empty result neither starts nor ends with whitespace. |
| Text.Split | index.js:56 | `split` yields at least one part, no part contains the separator, and joining the parts with the separator gives back the text. |
| Text.Join | index.js:109 | `join` starts with the first part. |
| Text.JoinAppend | index.js:109 | Joining two non-empty lists of parts gives the two joins with one separator between them. |
| Text.SplitJoin | index.js:56 | Splitting undoes joining when no part holds the separator. |
| Text.SplitConcat | index.js:56 | Splitting two texts joined by the separator gives the parts of the first followed by the parts of the second. |
| EnvFile.Kept | index.js:56 | A line that is read is non-empty and does not start with `#`. |
| EnvFile.KeptExactly | index.js:56 | A line is read exactly when it does not start with `#` and holds some character outside JavaScript's whitespace set, which is when its `trim()` is not empty. |
| EnvFile.SkippedLine | index.js:56 | A line that is not read adds no name after the lines before it. |
| EnvFile.NameOf | index.js:56 | `line.split('=')[0]` is a prefix of the line that contains no `=`. It is followed in the line by `=` unless it is the whole line. |
| EnvFile.NameOfAssignment | index.js:56 | The name read from `name=value` is `name` whenever `name` holds no `=`. |
| EnvFile.NamesOfLines | index.js:56 | The names read from a list of lines are at most one per line and hold no `=`. |
| EnvFile.Names | index.js:55-56 | The names read from a `.env` text contain no `=` and no line break. |
| EnvFile.LineContribution | index.js:56 | A blank line or a line that starts with `#` contributes nothing. Every other line contributes exactly its name, ahead of the names of the following lines. |
| EnvFile.NamesOfLastLine | index.js:56 | A one-line text yields what its single line contributes. |
| EnvFile.NamesOfFirstLine | index.js:56 | The first line of a text contributes its name or nothing, followed by the names of the remaining text. |
| EnvFile.NamesOfConcat | index.js:56 | The names of two texts joined by a line break are the names of the first followed by the names of the second. |
| EnvFile.NamesOfLinesAppend | index.js:56 | Reading names distributes over concatenation of line lists. |
| EnvFile.AssignmentLine | index.js:56 | For a name without `=` that does not start with `#`, the line `name=value` is kept (it is never blank) and contributes exactly `name`. |
| EnvFile.FormatEntry | index.js:102-108 | An answer line is the name, `=`, and then the value. The value is wrapped in double quotes exactly when it contains whitespace. |
| EnvFile.FormatEntryName | index.js:102-108 | For a name without `=`, a written entry reads back as that name, and it is kept by a sync exactly when the name does not start with `#`. |
| EnvFile.FormatLines | index.js:101-109 | One answer line per key. |
| EnvFile.FormatLinesCons | index.js:101-109 | The answer lines are the first name's entry followed by the entries of the other names, in key order. |
| EnvFile.NamesOfFormatLines | index.js:101-109 | When no written name holds `=` or starts with `#`, reading names back from the entries gives exactly the written names, in order. |
| EnvFile.AppendBlock | index.js:111 | The old text is a prefix of the new one. The rest is a line break, the marker `#Auto GEN by envCheck`, a line break, the entries joined by line breaks, and a final line break. |
| EnvFile.AppendBlockLines | index.js:111 | For a non-empty list of entries without line breaks, the appended text split into lines is the old lines, then the marker, then the entries, then one empty line. |
| EnvFile.FormatEntryNoBreak | index.js:102-108 | An entry for a name and value without line breaks is a single line. |
| EnvFile.NamesOfBlockLines | index.js:111 | The marker line and the trailing empty line of a block add no names. |
| EnvFile.NamesAfterAppend | index.js:101-111 | A sync after a check reads the names of the old text followed by exactly the written names. |
| Checker.IsSet | index.js:92 | `process.env[name]` is truthy exactly when the environment holds the name with a non-empty value. A name the environment lacks is truthy only if it is inherited from `Object.prototype`. |
| Checker.Missing | index.js:92 | A tracked name is missing exactly when `process.env[name]` is falsy. That happens when the environment holds it as the empty string, or lacks it and `Object.prototype` has no member of that name (`toString` and its like read as set). The missing names keep manifest order as a subsequence of `envCheck`. Each unset name occurs as often as in `envCheck`, and each set name not at all. |
| Checker.MissingAllUnset | index.js:92 | When no tracked name is set, every tracked name is missing, in order. |
| Checker.Dedup | index.js:98-101 | The keys of the answers object hold each prompted name once, and only prompted names. |
| Checker.DedupSnoc | index.js:98-101 | A name prompted again keeps its first key position, and a new name becomes the last key. So the keys are the prompted names in order of first appearance. |
| Checker.DedupDistinct | index.js:98-101 | Prompted names that are pairwise distinct become the keys in their own order. |
| Checker.Check | index.js:84-115 | The check refuses exactly when `envCheck` is falsy or not an array. It prompts for nothing and writes nothing exactly when every tracked name is set. Otherwise it asks for exactly the names the filter keeps, with their repetitions and in manifest order, and appends their formatted answers to the old `.env` text. |
| Checker.SyncAfterCheck | index.js:84-111 | When some tracked name is unset, the check appends answers. If every tracked name is free of `=`, `#` at its start and line breaks, and every answer is free of line breaks, a sync after that check tracks the same list as a sync before it would have. |
| Checker.SyncAfterAppend | index.js:101-111 | Appending entries for names already tracked adds nothing to what a sync merges, when those names are free of `=`, `#` at their start and line breaks, and their answers are free of line breaks. |
| Cli.Dispatch | index.js:123-141 | No arguments selects the check. `--add` alone is the error `NoVariablesProvided`. `--add` with names selects adding exactly those names. `--sync` selects sync. Any other first argument is `UnknownCommand` with that argument. |
| Cli.DispatchRoundTrip | index.js:123-141 | Every command with a well-formed argument list is recovered from its arguments. |
| Cli.AddToManifest | index.js:29-46 | The add succeeds exactly when the manifest is readable and `addEnvVars` does not throw. An unreadable manifest fails with `ManifestUnreadable`, and a throw fails with `EnvCheckNotAList`. A failed add exits 1 and changes no file. A successful add writes the manifest that `addEnvVars` computes and leaves `.env` alone. |
| Cli.Run | index.js:122-142 | Every error leaves both files unchanged. Dispatch errors exit 1. The exit status is 0 exactly on success or on a caught manifest failure in the check. A check with an unreadable manifest exits 0 with `ManifestUnreadable` and changes nothing. A check on a readable manifest succeeds exactly when `envCheck` is an array, and it changes a file exactly when it succeeds with some tracked name unset; that file is `.env`. `--sync` without `.env` fails with `EnvFileNotFound`. `--add` and `--sync` succeed exactly when the manifest is readable and `addEnvVars` does not throw on their names. A check never writes the manifest. `--add` and `--sync` never write `.env`. The other manifest fields are never changed. The old `.env` text always stays a prefix. |
| Cli.CheckAppendsMissing | index.js:84-115 | A check on an array `envCheck` with some tracked name unset exits 0 and leaves the manifest alone. `.env` becomes its old text (empty when there was no file) followed by the block of answers for the missing names, each once, in manifest order. |
| Cli.SyncTracksNames | index.js:49-60 | `--sync` with a `.env` file and an array or falsy `envCheck` succeeds. It merges the file's names into the tracked list. |
| Cli.SyncIntoUnset | index.js:29-60 | Syncing distinct names into a manifest without `envCheck` tracks exactly those names, in file order. |
| Cli.AddMerges | index.js:126-132 | `--add` with names on an array `envCheck` succeeds and merges the names. |
| Cli.AddTrackedNames | index.js:126-132 | `--add` with names that are all tracked already succeeds. It leaves the manifest value and `.env` unchanged. |
| Cli.RepeatIsHarmless | index.js:122-142 | Running `--add` or `--sync` a second time with the same arguments reports what the first run did and changes nothing further. |
| Scenarios.NamesOfCommentedFile | index.js:56 | A `.env` holding a comment line and one assignment yields the assigned name alone. |
| Scenarios.AddWithoutNames | index.js:126-131 | `--add` with no names exits 1 with `NoVariablesProvided` and touches no file. |
| Scenarios.AddTwiceTracksOnce | index.js:37-42 | Adding the same name twice in one invocation tracks it once. |
| Scenarios.CheckNothingMissing | index.js:92-115 | A check with every tracked variable set exits 0, prompts for nothing and writes nothing. |
| Scenarios.CheckInheritedName | index.js:92-115 | A tracked `toString` that the environment lacks reads as set through `Object.prototype`. The check then exits 0, prompts for nothing and writes nothing. |
| Scenarios.CheckWithoutConfiguration | index.js:84-87 | A check on a manifest without an `envCheck` array exits 1 with `NoEnvCheckConfigured` and writes nothing. |
| Scenarios.AnswerLines | index.js:101-109 | The answers `1` and `a b` become the lines `X=1` and `Y="a b"`. |
| Scenarios.CheckAppendsAnswers | index.js:92-111 | With `X` and `Y` both unset, the check asks for both in manifest order and appends their formatted answers. |
| Scenarios.AnswerBlockText | index.js:111 | The appended block for those answers, character by character. |
| Scenarios.SyncExample | index.js:49-60 | Syncing a comment and one assignment into a manifest without `envCheck` tracks exactly the assigned name. |

## Left out

- File access, path resolution and the JSON pretty-printing of `package.json` are not modelled. File contents are inputs and outputs of `Cli.Run`. A manifest that cannot be imported is `None`.
- The other fields of `package.json` are kept as opaque serialised values, because the tool never reads them.
- `dotenv.config` is not modelled. Its effect is the environment map given to `Cli.Run`.
- `inquirer.prompt` is the function `reply`. It gives one answer per distinct name, and a key of the answers object holds that answer.
- Inquirer's handling of dotted prompt names as nested answer paths is not modelled. Each name is a flat key.
- `Object.keys` puts integer-like keys first in ascending numeric order. The model keeps first-occurrence order for all keys, as `Checker.DedupSnoc` states.
- The names inherited from `Object.prototype` are the standard ones of current engines, listed in `Checker.InheritedNames`. Members that a host or library adds to `Object.prototype` are not modelled.
- Console messages and the logging in the check's `catch` are not modelled. Only their exit status and error kind are.
- A rejected promise in `--add` or `--sync` is modelled as exit status 1. This is how Node terminates on an unhandled rejection.
- Strings are sequences of Unicode scalar values, not UTF-16 code units. No JavaScript whitespace character lies outside the basic plane, so `trim()` and `\s` agree.
- The whitespace set is that of current JavaScript engines. Engines built on older Unicode versions differ.
- An `envCheck` array may hold non-string elements. These are not modelled: the array is a list of strings.
- EnvFile.Kept: its contract states only what a read line must look like. The converse is stated by `EnvFile.KeptExactly`, kept as a separate lemma so that every proof that reads lines does not carry the quantifier.
- ManifestStore.Includes: its contract states only the prefix case and the length bound. The full substring search is its definition, an occurrence at some position of the text.
- Text.Join: its contract states only that the first part is a prefix. The full behaviour is stated by `Text.JoinAppend` and by `Text.SplitJoin`, which inverts it.
- EnvFile.FormatLines: its contract states only the number of lines. Their contents are stated by `EnvFile.FormatLinesCons` and `EnvFile.NamesOfFormatLines`.
- Checker.SyncAfterCheck: requires tracked names free of `=`, a leading `#` and line breaks, and answers free of line breaks. Otherwise the source does not keep the list: an unset tracked `A=B` is written as `A=B=…` and a later sync reads `A` as a new name; an answer with a line break is written over two lines and its second line is read as a name.
- Checker.SyncAfterAppend: requires the same conditions on the written names and answers as `Checker.SyncAfterCheck`, for the same reason.
- Cli.AddTrackedNames: states that the manifest value is unchanged. The source still rewrites `package.json` in its own JSON layout, which the model does not represent.
- EnvFile.NamesAfterAppend: requires names and answers without line breaks. Names must also have no `=` and no leading `#`. Other answers are written as several lines, and a sync would read them differently.

=== FILE: checker.dfy ===
/** The check flow run with no arguments: which tracked variables are
    missing from the environment, and what is appended to `.env` for them. */
module Checker {
  import opened Common
  import opened ManifestStore
  import opened EnvFile

  /** The members every object inherits from `Object.prototype`. Reading one
      of these names from `process.env` when the environment does not hold
      it yields the inherited function (or, for `__proto__`, the prototype
      object itself), which is truthy. */
  const InheritedNames: set<string> := {
    "constructor", "hasOwnProperty", "isPrototypeOf", "propertyIsEnumerable",
    "toLocaleString", "toString", "valueOf", "__proto__",
    "__defineGetter__", "__defineSetter__", "__lookupGetter__", "__lookupSetter__"
  }

  /** `process.env[name]` is truthy: a variable of the environment that is not
      the empty string, or, when the environment has no such variable, a
      member inherited from `Object.prototype`. */
  predicate IsSet(env: map<string, string>, name: string): (truthy: bool)
    ensures name in env ==> (truthy <==> env[name] != [])
    ensures truthy ==> name in env || name in InheritedNames
  {
    if name in env then env[name] != [] else name in InheritedNames
  }

  /** The tracked names whose value is absent or empty, in manifest order. */
  function Missing(tracked: seq<string>, env: map<string, string>): (missing: seq<string>)
    ensures forall n :: n in missing <==> n in tracked && !IsSet(env, n)
    ensures IsSubsequence(missing, tracked)
    ensures forall n :: multiset(missing)[n] == if IsSet(env, n) then 0 else multiset(tracked)[n]
  {
    if tracked == [] then []
    else
      var first := tracked[0];
      var rest := Missing(tracked[1..], env);
      assert tracked == [first] + tracked[1..];
      assert multiset(tracked) == multiset{first} + multiset(tracked[1..]);
      if IsSet(env, first) then rest
      else
        assert multiset([first] + rest) == multiset{first} + multiset(rest);
        [first] + rest
  }

  /** The keys of the answers object: each prompted name once, in order of
      first appearance. */
  function Dedup(names: seq<string>): (keys: seq<string>)
    ensures NoDuplicates(keys)
    ensures forall n :: n in keys <==> n in names
  {
    var keys := Merge([], names);
    assert forall n :: n in keys ==> n in names by {
      forall n | n in keys ensures n in names {
        var i :| 0 <= i < |keys| && keys[i] == n;
      }
    }
    keys
  }

  /** What a check does: refuse a manifest without an envCheck array, report
      success when nothing is missing, otherwise prompt for the missing names
      and append their answers to the `.env` text. */
  datatype CheckResult = NotConfigured | AllSet | Appended(asked: seq<string>, text: string)

  /** checkEnvVars on a loaded manifest field, an environment snapshot, the
      current `.env` text (empty when the file does not exist, since appending
      creates it) and the operator's answer to each prompt. */
  function Check(field: EnvCheck, env: map<string, string>, prior: string,
                 reply: string -> string): (r: CheckResult)
    ensures r.NotConfigured? <==> !field.List?
    ensures r.AllSet? <==> field.List? && forall n :: n in field.names ==> IsSet(env, n)
    ensures r.Appended? ==> && field.List? && r.asked != []
                            && IsSubsequence(r.asked, field.names)
                            && (forall n :: n in r.asked <==> n in field.names && !IsSet(env, n))
    ensures r.Appended? ==> r.asked == Missing(field.names, env)
    ensures r.Appended? ==> prior <= r.text
    ensures r.Appended? ==> r.text == AppendBlock(prior, FormatLines(Dedup(r.asked), reply))
  {
    if !Truthy(field) || !field.List? then NotConfigured
    else
      var missing := Missing(field.names, env);
      if |missing| > 0 then
        Appended(missing, AppendBlock(prior, FormatLines(Dedup(missing), reply)))
      else
        AllSet
  }

  /** With every tracked name unset, all of them are missing, in order. */
  lemma {:induction false} MissingAllUnset(tracked: seq<string>, env: map<string, string>)
    requires forall n :: n in tracked ==> !IsSet(env, n)
    ensures Missing(tracked, env) == tracked
  {
    if tracked != [] {
      assert tracked[0] in tracked;
      MissingAllUnset(tracked[1..], env);
    }
  }

  /** Appending a name to the prompted names adds a key at the end exactly
      when the name is new; a repeated name keeps its first position. With
      `Dedup([]) == []` this fixes the keys as the names in order of first
      appearance. */
  lemma DedupSnoc(names: seq<string>, n: string)
    ensures Dedup(names + [n]) == if n in names then Dedup(names) else Dedup(names) + [n]
  {
    var keys := Merge([], names);
    MergeConcat([], names, [n]);
    if n in names {
      MergePresent(keys, [n]);
    } else {
      assert n !in keys;
      MergeFresh(keys, [n]);
    }
  }

  /** Duplicate-free names keep their order and each gets one answer line. */
  lemma DedupDistinct(names: seq<string>)
    requires NoDuplicates(names)
    ensures Dedup(names) == names
  {
    MergeFresh([], names);
  }

  /** With some tracked name unset the check appends answers, and running
      `--sync` afterwards leaves the tracked list exactly as a sync before
      the check would have: every name the check wrote is already tracked. */
  lemma SyncAfterCheck(tracked: seq<string>, env: map<string, string>, prior: string,
                       reply: string -> string)
    requires forall n :: n in tracked ==> Writable(n)
    requires forall n :: n in tracked ==> '\n' !in reply(n)
    requires exists n :: n in tracked && !IsSet(env, n)
    ensures Check(List(tracked), env, prior, reply).Appended?
    ensures Merge(tracked, Names(Check(List(tracked), env, prior, reply).text))
         == Merge(tracked, Names(prior))
  {
    var r := Check(List(tracked), env, prior, reply);
    assert r.Appended?;
    var keys := Dedup(r.asked);
    assert r.asked[0] in keys;
    assert forall i :: 0 <= i < |keys| ==> keys[i] in tracked;
    SyncAfterAppend(tracked, prior, keys, reply);
  }

  /** Appending entries for names that are already tracked adds nothing to
      what a sync merges into the tracked list. */
  lemma SyncAfterAppend(tracked: seq<string>, prior: string, keys: seq<string>,
                        reply: string -> string)
    requires keys != []
    requires forall i :: 0 <= i < |keys| ==> keys[i] in tracked
    requires forall i :: 0 <= i < |keys| ==> Writable(keys[i]) && '\n' !in reply(keys[i])
    ensures Merge(tracked, Names(AppendBlock(prior, FormatLines(keys, reply))))
         == Merge(tracked, Names(prior))
  {
    var before := Merge(tracked, Names(prior));
    calc {
      Merge(tracked, Names(AppendBlock(prior, FormatLines(keys, reply))));
      { NamesAfterAppend(prior, keys, reply); }
      Merge(tracked, Names(prior) + keys);
      { MergeConcat(tracked, Names(prior), keys); }
      Merge(before, keys);
      { assert forall i :: 0 <= i < |keys| ==> keys[i] in before;
        MergePresent(before, keys); }
      before;
    }
  }
}

=== FILE: cli.dfy ===
/** The command line: how the arguments choose a command, and what one
    invocation does to the two files it owns (package.json and .env). */
module Cli {
  import opened Common
  import opened ManifestStore
  import opened EnvFile
  import opened Checker

  /** The three operations of the tool. */
  datatype Command = CheckAll | AddNames(names: seq<string>) | SyncFromFile

  /** The arguments that select `cmd`. */
  function ToArgs(cmd: Command): seq<string> {
    match cmd
    case CheckAll => []
    case AddNames(names) => ["--add"] + names
    case SyncFromFile => ["--sync"]
  }

  /** The dispatch in main on the arguments after the script name. */
  function Dispatch(args: seq<string>): (r: Result<Command, Failure>)
    ensures args == [] ==> r == Ok(CheckAll)
    ensures args == ["--add"] ==> r == Err(NoVariablesProvided)
    ensures |args| > 1 && args[0] == "--add" ==> r == Ok(AddNames(args[1..]))
    ensures args != [] && args[0] == "--sync" ==> r == Ok(SyncFromFile)
    ensures args != [] && args[0] != "--add" && args[0] != "--sync" ==> r == Err(UnknownCommand(args[0]))
    ensures r.Ok? ==> ToArgs(r.value) <= args
    ensures r.Ok? && r.value.AddNames? ==> r.value.names != [] && args == ToArgs(r.value)
  {
    if |args| > 0 then
      if args[0] == "--add" then
        var names := args[1..];
        if |names| == 0 then Err(NoVariablesProvided)
        else
          assert args == ["--add"] + names;
          Ok(AddNames(names))
      else if args[0] == "--sync" then
        Ok(SyncFromFile)
      else
        Err(UnknownCommand(args[0]))
    else
      Ok(CheckAll)
  }

  /** Every command with a well-formed argument list is recovered from its
      arguments. */
  lemma DispatchRoundTrip(cmd: Command)
    requires cmd.AddNames? ==> cmd.names != []
    ensures Dispatch(ToArgs(cmd)) == Ok(cmd)
  {
    if cmd.AddNames? {
      assert ToArgs(cmd)[1..] == cmd.names;
    }
  }

  /** The files the tool reads and writes: package.json (None when missing or
      not importable) and the text of .env (None when the file does not exist). */
  datatype World = World(manifest: Option<Manifest>, envFile: Option<string>)

  /** How an invocation ends: the exit status, the error it reported if any,
      and the files afterwards. */
  datatype Outcome = Outcome(exitCode: nat, error: Option<Failure>, world: World)

  /** addEnvVars on the current package.json. Loading rejects without a
      readable manifest; the rejection is not caught, so the process fails. */
  function AddToManifest(w: World, names: seq<string>): (r: Outcome)
    ensures r.error.Some? <==> r.exitCode == 1
    ensures r.error.Some? ==> r.world == w
    ensures r.error.None? <==> w.manifest.Some? && AddEnvVars(w.manifest.value, names).Ok?
    ensures r.error.None? ==> && r.world.envFile == w.envFile
                              && r.world.manifest == Some(AddEnvVars(w.manifest.value, names).value)
    ensures w.manifest.None? ==> r.error == Some(ManifestUnreadable)
    ensures w.manifest.Some? && AddEnvVars(w.manifest.value, names).Err? ==> r.error == Some(EnvCheckNotAList)
  {
    match w.manifest
    case None => Outcome(1, Some(ManifestUnreadable), w)
    case Some(m) =>
      match AddEnvVars(m, names)
      case Ok(m') => Outcome(0, None, w.(manifest := Some(m')))
      case Err(e) => Outcome(1, Some(e), w)
  }

  /** One invocation of the tool with arguments `args`, environment snapshot
      `env` (the ambient environment after loading .env) and the operator's
      answer to each prompt. */
  function Run(args: seq<string>, w: World, env: map<string, string>,
               reply: string -> string): (r: Outcome)
    ensures r.error.Some? ==> r.world == w
    ensures Dispatch(args).Err? ==> r.exitCode == 1 && r.error == Some(Dispatch(args).error)
    ensures r.exitCode == 0 <==> r.error.None? || (Dispatch(args) == Ok(CheckAll) && r.error == Some(ManifestUnreadable))
    ensures Dispatch(args) == Ok(CheckAll) ==> r.world.manifest == w.manifest
    ensures Dispatch(args) != Ok(CheckAll) ==> r.world.envFile == w.envFile
    ensures r.world.manifest.Some? ==> w.manifest.Some? && r.world.manifest.value.others == w.manifest.value.others
    ensures w.envFile.Some? ==> r.world.envFile.Some? && w.envFile.value <= r.world.envFile.value
    ensures Dispatch(args) == Ok(CheckAll) && w.manifest.None? ==> r == Outcome(0, Some(ManifestUnreadable), w)
    ensures Dispatch(args) == Ok(CheckAll) && w.manifest.Some?
            ==> (r.error.None? <==> w.manifest.value.envCheck.List?)
                && (r.world != w <==> r.world.envFile != w.envFile && r.error.None? && exists n :: n in w.manifest.value.envCheck.names && !IsSet(env, n))
    ensures Dispatch(args) == Ok(SyncFromFile) && w.envFile.None? ==> r == Outcome(1, Some(EnvFileNotFound), w)
    ensures Dispatch(args).Ok? && Dispatch(args).value.AddNames?
            ==> (r.error.None? <==> w.manifest.Some? && AddEnvVars(w.manifest.value, Dispatch(args).value.names).Ok?)
    ensures Dispatch(args) == Ok(SyncFromFile) && w.envFile.Some?
            ==> (r.error.None? <==> w.manifest.Some? && AddEnvVars(w.manifest.value, Names(w.envFile.value)).Ok?)
  {
    match Dispatch(args)
    case Err(e) => Outcome(1, Some(e), w)
    case Ok(AddNames(names)) => AddToManifest(w, names)
    case Ok(SyncFromFile) =>
      if w.envFile.None? then Outcome(1, Some(EnvFileNotFound), w)
      else AddToManifest(w, Names(w.envFile.value))
    case Ok(CheckAll) =>
      match w.manifest
      // The import failure is caught and logged by the check's try/catch.
      case None => Outcome(0, Some(ManifestUnreadable), w)
      case Some(m) =>
        // A missing .env reads as empty: appending to it creates the file.
        var prior := if w.envFile.Some? then w.envFile.value else [];
        match Check(m.envCheck, env, prior, reply)
        case NotConfigured => Outcome(1, Some(NoEnvCheckConfigured), w)
        case AllSet => Outcome(0, None, w)
        case Appended(_, text) => Outcome(0, None, w.(envFile := Some(text)))
  }

  /** A check that finds some tracked variable unset succeeds and appends
      the answers for the missing names, each once and in manifest order,
      to the old `.env` text; a missing file counts as empty. The manifest
      is left as it was. */
  lemma CheckAppendsMissing(m: Manifest, envFile: Option<string>, env: map<string, string>,
                            reply: string -> string)
    requires m.envCheck.List?
    requires exists n :: n in m.envCheck.names && !IsSet(env, n)
    ensures var prior := if envFile.Some? then envFile.value else [];
            var asked := Missing(m.envCheck.names, env);
            Run([], World(Some(m), envFile), env, reply)
              == Outcome(0, None, World(Some(m), Some(AppendBlock(prior, FormatLines(Dedup(asked), reply)))))
  {
    var prior := if envFile.Some? then envFile.value else [];
    assert !Check(m.envCheck, env, prior, reply).AllSet?;
  }

  /** `--sync` with a readable .env and a manifest whose envCheck is an array
      or falsy succeeds and merges the file's names into the tracked list. */
  lemma SyncTracksNames(w: World, env: map<string, string>, reply: string -> string)
    requires w.envFile.Some? && w.manifest.Some?
    requires w.manifest.value.envCheck.List? || !Truthy(w.manifest.value.envCheck)
    ensures var m := w.manifest.value;
            var tracked := if m.envCheck.List? then m.envCheck.names else [];
            Run(["--sync"], w, env, reply)
              == Outcome(0, None, w.(manifest := Some(m.(envCheck := List(Merge(tracked, Names(w.envFile.value)))))))
  {
    assert Dispatch(["--sync"]) == Ok(SyncFromFile);
  }

  /** Syncing a file whose names are pairwise distinct into a manifest with a
      falsy envCheck tracks exactly those names, in file order. */
  lemma SyncIntoUnset(others: map<string, string>, text: string, env: map<string, string>,
                      reply: string -> string)
    requires NoDuplicates(Names(text))
    ensures var w := World(Some(Manifest(Unset, others)), Some(text));
            Run(["--sync"], w, env, reply)
              == Outcome(0, None, w.(manifest := Some(Manifest(List(Names(text)), others))))
  {
    MergeFresh([], Names(text));
    assert [] + Names(text) == Names(text);
    SyncTracksNames(World(Some(Manifest(Unset, others)), Some(text)), env, reply);
  }

  /** `--add` with names on a manifest that tracks a list succeeds and merges
      the names into it, leaving `.env` alone. */
  lemma AddMerges(w: World, names: seq<string>, env: map<string, string>, reply: string -> string)
    requires names != [] && w.manifest.Some? && w.manifest.value.envCheck.List?
    ensures var m := w.manifest.value;
            Run(["--add"] + names, w, env, reply)
              == Outcome(0, None, w.(manifest := Some(m.(envCheck := List(Merge(m.envCheck.names, names))))))
  {
    assert (["--add"] + names)[1..] == names;
  }

  /** `--add` with names that are all tracked already succeeds and changes
      no file. */
  lemma AddTrackedNames(w: World, names: seq<string>, env: map<string, string>,
                        reply: string -> string)
    requires names != [] && w.manifest.Some? && w.manifest.value.envCheck.List?
    requires forall n :: n in names ==> n in w.manifest.value.envCheck.names
    ensures Run(["--add"] + names, w, env, reply) == Outcome(0, None, w)
  {
    AddMerges(w, names, env, reply);
    MergePresent(w.manifest.value.envCheck.names, names);
  }

  /** Repeating `--add` or `--sync` with the same arguments changes nothing
      more: the second run reports what the first did and leaves its files. */
  lemma RepeatIsHarmless(args: seq<string>, w: World, env: map<string, string>,
                         reply: string -> string)
    requires Dispatch(args) != Ok(CheckAll)
    ensures var first := Run(args, w, env, reply);
            Run(args, first.world, env, reply) == first
  {
    var first := Run(args, w, env, reply);
    match Dispatch(args)
    case Err(_) =>
    case Ok(AddNames(names)) =>
      if w.manifest.Some? && AddEnvVars(w.manifest.value, names).Ok? {
        AddEnvVarsIdempotent(w.manifest.value, names);
      }
    case Ok(SyncFromFile) =>
      if w.envFile.Some? && w.manifest.Some? && AddEnvVars(w.manifest.value, Names(w.envFile.value)).Ok? {
        AddEnvVarsIdempotent(w.manifest.value, Names(w.envFile.value));
      }
  }
}

=== FILE: common.dfy ===
/** Small shared vocabulary: optional values, results, the tool's error kinds,
    and two facts about sequences used by every component. */
module Common {

  /** A value that may be absent: a missing file, a missing manifest. */
  datatype Option<+T> = None | Some(value: T)

  /** The outcome of an operation that can fail with an error `E`. */
  datatype Result<+T, +E> = Ok(value: T) | Err(error: E)

  /** The error kinds the tool reports before it exits. */
  datatype Failure =
    | ManifestUnreadable       // package.json is missing or cannot be imported
    | NoEnvCheckConfigured     // envCheck is falsy or not an array at check time
    | EnvFileNotFound          // --sync without a .env file
    | NoVariablesProvided      // --add with no names after it
    | UnknownCommand(arg: string)
    | EnvCheckNotAList         // a TypeError thrown while merging into a non-array envCheck

  /** No element occurs twice. */
  predicate NoDuplicates<T(==)>(s: seq<T>) {
    forall i, j :: 0 <= i < j < |s| ==> s[i] != s[j]
  }

  /** `a` can be obtained from `b` by deleting elements, keeping the order of the rest. */
  predicate IsSubsequence<T(==)>(a: seq<T>, b: seq<T>)
    decreases |b|
  {
    || a == []
    || (&& b != []
        && ((a[0] == b[0] && IsSubsequence(a[1..], b[1..])) || IsSubsequence(a, b[1..])))
  }
}

=== FILE: envfile.dfy ===
/** The `.env` file as text: the name extraction of `--sync` and the block of
    answers that a check appends. */
module EnvFile {
  import opened Text

  /** The comment line that opens every appended block. */
  const Marker: string := "#Auto GEN by envCheck"

  /** `line.split('=')[0]`: the text before the first `=`, or the whole line. */
  function NameOf(line: string): (name: string)
    ensures '=' !in name
    ensures name <= line
    ensures |name| < |line| ==> line[|name|] == '='
  {
    var parts := Split(line, '=');
    if |parts| == 1 then parts[0]
    else
      assert line == parts[0] + ['='] + Join(parts[1..], '=');
      parts[0]
  }

  /** The filter of syncEnvVars: a line counts when its trimmed text is
      non-empty and it does not start with `#`. */
  predicate Kept(line: string): (kept: bool)
    ensures kept ==> line != [] && line[0] != '#'
  {
    Trim(line) != [] && !(line != [] && line[0] == '#')
  }

  /** A line is read exactly when it does not start with `#` and holds some
      character that is not whitespace. */
  lemma KeptExactly(line: string)
    ensures Kept(line) <==> line != [] && line[0] != '#' && exists i :: 0 <= i < |line| && !IsWhitespace(line[i])
  {
  }

  /** What one line contributes: its name when it is kept, nothing otherwise. */
  function LineNames(line: string): seq<string> {
    if Kept(line) then [NameOf(line)] else []
  }

  /** The names contributed by `lines`, in order: one per kept line. */
  function NamesOfLines(lines: seq<string>): (names: seq<string>)
    ensures |names| <= |lines|
    ensures forall n :: n in names ==> '=' !in n
  {
    if lines == [] then [] else LineNames(lines[0]) + NamesOfLines(lines[1..])
  }

  /** A character that occurs in no line occurs in no name taken from them. */
  lemma {:induction false} NamesOfLinesAvoid(lines: seq<string>, c: char)
    requires forall k :: 0 <= k < |lines| ==> c !in lines[k]
    ensures forall i :: 0 <= i < |NamesOfLines(lines)| ==> c !in NamesOfLines(lines)[i]
  {
    if lines != [] {
      NamesOfLinesAvoid(lines[1..], c);
      var head, tail := LineNames(lines[0]), NamesOfLines(lines[1..]);
      assert NamesOfLines(lines) == head + tail;
      forall i | 0 <= i < |head + tail| ensures c !in (head + tail)[i] {
        if i < |head| {
          assert head[i] == NameOf(lines[0]) <= lines[0];
        } else {
          assert (head + tail)[i] == tail[i - |head|];
        }
      }
    }
  }

  /** The variable names syncEnvVars reads from the text of a `.env` file. */
  function Names(text: string): (names: seq<string>)
    ensures forall i :: 0 <= i < |names| ==> '=' !in names[i] && '\n' !in names[i]
  {
    var lines := Split(text, '\n');
    NamesOfLinesAvoid(lines, '\n');
    NamesOfLines(lines)
  }

  /** One answer as a `.env` line: `NAME=VALUE`, with the value wrapped in
      double quotes exactly when it contains whitespace. */
  function FormatEntry(name: string, value: string): (line: string)
    ensures name <= line && |line| > |name| && line[|name|] == '='
    ensures HasWhiteSpace(value) ==> line[|name| + 1..] == ['"'] + value + ['"']
    ensures !HasWhiteSpace(value) ==> line[|name| + 1..] == value
  {
    if HasWhiteSpace(value) then name + "=\"" + value + "\""
    else name + "=" + value
  }

  /** The lines written for `names`, each with the value `reply` gives it. */
  function FormatLines(names: seq<string>, reply: string -> string): (lines: seq<string>)
    ensures |lines| == |names|
  {
    seq(|names|, i requires 0 <= i < |names| => FormatEntry(names[i], reply(names[i])))
  }

  /** The new file text after appending the block of `lines` to `prior`: a line
      break, the marker comment, the lines one per row, and a final break. */
  function AppendBlock(prior: string, lines: seq<string>): (text: string)
    ensures prior <= text
    ensures text[|prior|..] == "\n" + Marker + "\n" + Join(lines, '\n') + "\n"
  {
    prior + "\n" + Marker + "\n" + Join(lines, '\n') + "\n"
  }

  /** The names of a concatenation of line lists are the concatenated names. */
  lemma {:induction false} NamesOfLinesAppend(a: seq<string>, b: seq<string>)
    ensures NamesOfLines(a + b) == NamesOfLines(a) + NamesOfLines(b)
  {
    if a != [] {
      assert (a + b)[0] == a[0];
      assert (a + b)[1..] == a[1..] + b;
      NamesOfLinesAppend(a[1..], b);
    } else {
      assert a + b == b;
    }
  }

  /** A line in front of `rest` contributes nothing when it is blank or a
      comment, and otherwise exactly its name, ahead of the names of `rest`. */
  lemma LineContribution(line: string, rest: seq<string>)
    ensures Trim(line) == [] ==> NamesOfLines([line] + rest) == NamesOfLines(rest)
    ensures line != [] && line[0] == '#' ==> NamesOfLines([line] + rest) == NamesOfLines(rest)
    ensures Kept(line) ==> NamesOfLines([line] + rest) == [NameOf(line)] + NamesOfLines(rest)
  {
    assert ([line] + rest)[1..] == rest;
  }

  /** Reading a file line by line: a text of one line yields what that
      line contributes. */
  lemma NamesOfLastLine(line: string)
    requires '\n' !in line
    ensures Names(line) == LineNames(line)
  {
    SplitNoSeparator(line, '\n');
    assert [line][1..] == [];
  }

  /** Reading a file line by line: a first line contributes its name when it
      is kept and nothing otherwise, ahead of the names of the rest. */
  lemma NamesOfFirstLine(line: string, tail: string)
    requires '\n' !in line
    ensures Names(line + "\n" + tail) == LineNames(line) + Names(tail)
  {
    SplitPrefixed(line, tail, '\n');
    assert ([line] + Split(tail, '\n'))[1..] == Split(tail, '\n');
  }

  /** A sync reads the two sides of a line break independently: the names
      of the first part, then those of the second. */
  lemma NamesOfConcat(a: string, b: string)
    ensures Names(a + "\n" + b) == Names(a) + Names(b)
  {
    SplitConcat(a, b, '\n');
    NamesOfLinesAppend(Split(a, '\n'), Split(b, '\n'));
  }

  /** The name of an assignment `name=value` is the text before its first `=`. */
  lemma NameOfAssignment(name: string, value: string)
    requires '=' !in name
    ensures NameOf(name + "=" + value) == name
  {
    SplitPrefixed(name, value, '=');
  }

  /** A name that a formatted entry gives back when the line is read: it
      holds no `=` and does not make the line a comment. */
  predicate Readable(name: string) {
    '=' !in name && !(name != [] && name[0] == '#')
  }

  /** A readable name that also keeps its entry on one line. */
  predicate Writable(name: string) {
    Readable(name) && '\n' !in name
  }

  /** A line `name=value` is never blank, since it holds `=`; it contributes
      its name unless the name makes it a comment. */
  lemma AssignmentLine(name: string, value: string)
    requires Readable(name)
    ensures LineNames(name + "=" + value) == [name]
  {
    var line := name + "=" + value;
    NameOfAssignment(name, value);
    assert line[|name|] == '=' && !IsWhitespace('=');
    assert name == [] ==> line[0] == '=';
    assert name != [] ==> line[0] == name[0];
  }

  /** A formatted entry reads back as its own name. */
  lemma FormatEntryName(name: string, value: string)
    requires '=' !in name
    ensures NameOf(FormatEntry(name, value)) == name
    ensures Kept(FormatEntry(name, value)) <==> !(name != [] && name[0] == '#')
  {
    var line := FormatEntry(name, value);
    var n := NameOf(line);
    assert forall k :: 0 <= k < |name| ==> line[k] == name[k] && line[k] != '=';
    assert forall k :: 0 <= k < |n| ==> line[k] == n[k];
    assert |n| <= |name| ==> n == name;
    assert line[|name|] == '=' && !IsWhitespace('=');
  }

  /** The lines for a list of names: the first name's entry, then the rest. */
  lemma FormatLinesCons(names: seq<string>, reply: string -> string)
    requires names != []
    ensures FormatLines(names, reply)
         == [FormatEntry(names[0], reply(names[0]))] + FormatLines(names[1..], reply)
  {
    var lines := FormatLines(names, reply);
    var rest := FormatLines(names[1..], reply);
    forall i | 1 <= i < |lines| ensures lines[i] == rest[i - 1] {
      assert names[1..][i - 1] == names[i];
    }
  }

  /** Reading names back from formatted entries gives the names written. */
  lemma {:induction false} NamesOfFormatLines(names: seq<string>, reply: string -> string)
    requires forall i :: 0 <= i < |names| ==> Readable(names[i])
    ensures NamesOfLines(FormatLines(names, reply)) == names
  {
    if names != [] {
      FirstEntryName(names, reply);
      NamesOfFormatLines(names[1..], reply);
      assert [names[0]] + names[1..] == names;
    }
  }

  /** The first entry of formatted lines reads back as the first name. */
  lemma FirstEntryName(names: seq<string>, reply: string -> string)
    requires names != [] && Readable(names[0])
    ensures NamesOfLines(FormatLines(names, reply))
         == [names[0]] + NamesOfLines(FormatLines(names[1..], reply))
  {
    var first := FormatEntry(names[0], reply(names[0]));
    var rest := FormatLines(names[1..], reply);
    FormatLinesCons(names, reply);
    assert ([first] + rest)[1..] == rest;
    FormatEntryName(names[0], reply(names[0]));
  }

  /** The lines of the appended text: the prior lines, the marker, the entries
      and one empty line after the final break. */
  lemma AppendBlockLines(prior: string, lines: seq<string>)
    requires lines != []
    requires forall i :: 0 <= i < |lines| ==> '\n' !in lines[i]
    ensures Split(AppendBlock(prior, lines), '\n') == Split(prior, '\n') + [Marker] + lines + [[]]
  {
    var marker := Marker;
    var body := Join(lines, '\n');
    var blank: string := [];
    var block := marker + "\n" + (body + "\n" + blank);
    assert AppendBlock(prior, lines) == prior + "\n" + block;
    calc {
      Split(prior + "\n" + block, '\n');
      { SplitConcat(prior, block, '\n'); }
      Split(prior, '\n') + Split(block, '\n');
      { SplitConcat(marker, body + "\n" + blank, '\n');
        SplitConcat(body, blank, '\n'); }
      Split(prior, '\n') + (Split(marker, '\n') + (Split(body, '\n') + Split(blank, '\n')));
      { assert marker[0] == '#';
        SplitNoSeparator(marker, '\n');
        SplitJoin(lines, '\n'); }
      Split(prior, '\n') + ([marker] + (lines + [blank]));
      Split(prior, '\n') + [marker] + lines + [blank];
    }
  }

  /** Entries of break-free names and values are break-free lines. */
  lemma FormatEntryNoBreak(name: string, value: string)
    requires '\n' !in name && '\n' !in value
    ensures '\n' !in FormatEntry(name, value)
  {
    var line := FormatEntry(name, value);
    if HasWhiteSpace(value) {
      assert line == name + "=\"" + value + "\"";
    } else {
      assert line == name + "=" + value;
    }
  }

  /** A line that is not kept adds no names after the lines before it. */
  lemma SkippedLine(earlier: seq<string>, line: string)
    requires !Kept(line)
    ensures NamesOfLines(earlier + [line]) == NamesOfLines(earlier)
  {
    NamesOfLinesAppend(earlier, [line]);
    assert [line][1..] == [];
  }

  /** The marker line and the empty line after the final break add no names. */
  lemma NamesOfBlockLines(earlier: seq<string>, lines: seq<string>)
    ensures NamesOfLines(earlier + [Marker] + lines + [[]]) == NamesOfLines(earlier) + NamesOfLines(lines)
  {
    var marked := earlier + [Marker];
    assert Marker[0] == '#';
    SkippedLine(earlier, Marker);
    NamesOfLinesAppend(marked, lines);
    SkippedLine(marked + lines, []);
  }

  /** A sync run after a check finds every name the check wrote, after the
      names that were already in the file: the appended block adds exactly
      the written names, in order. */
  lemma NamesAfterAppend(prior: string, names: seq<string>, reply: string -> string)
    requires names != []
    requires forall i :: 0 <= i < |names| ==> Writable(names[i])
    requires forall i :: 0 <= i < |names| ==> '\n' !in reply(names[i])
    ensures Names(AppendBlock(prior, FormatLines(names, reply))) == Names(prior) + names
  {
    var lines := FormatLines(names, reply);
    forall i | 0 <= i < |lines| ensures '\n' !in lines[i] {
      FormatEntryNoBreak(names[i], reply(names[i]));
    }
    AppendBlockLines(prior, lines);
    NamesOfBlockLines(Split(prior, '\n'), lines);
    NamesOfFormatLines(names, reply);
  }
}

=== FILE: manifest.dfy ===
/** The project manifest (package.json) as far as the tool touches it: the
    `envCheck` field and the merge that `--add` and `--sync` perform on it. */
module ManifestStore {
  import opened Common

  /** The JSON value stored under `envCheck`.
      `Unset` stands for every falsy value (an absent key, null, false, 0);
      `Str` is a string (the empty string is falsy too), `List` an array of
      names, `Other` any other truthy non-array value (a number, true, an object). */
  datatype EnvCheck = Unset | List(names: seq<string>) | Str(text: string) | Other

  /** The manifest: `envCheck` plus every other top-level field, kept as its
      serialised JSON value, which the tool never looks into. */
  datatype Manifest = Manifest(envCheck: EnvCheck, others: map<string, string>)

  /** JavaScript truthiness of the field (`!!packageJson.envCheck`). */
  predicate Truthy(f: EnvCheck): (t: bool)
    ensures t <==> f != Unset && f != Str([])
  {
    match f
    case Unset => false
    case Str(s) => s != []
    case _ => true
  }

  /** The forEach loop of addEnvVars: each name of `vars`, in order, is pushed
      onto `tracked` unless `tracked` already includes it. */
  function Merge(tracked: seq<string>, vars: seq<string>): (r: seq<string>)
    ensures tracked <= r
    ensures forall v :: v in vars ==> v in r
    ensures forall i :: |tracked| <= i < |r| ==> r[i] in vars && r[i] !in tracked
    ensures forall i, j :: |tracked| <= i < j < |r| ==> r[i] != r[j]
    ensures NoDuplicates(tracked) ==> NoDuplicates(r)
    decreases |vars|
  {
    if vars == [] then tracked
    else
      var next := if vars[0] in tracked then tracked else tracked + [vars[0]];
      var r := Merge(next, vars[1..]);
      assert forall i :: |next| <= i < |r| ==> r[i] in vars[1..];
      assert forall v :: v in vars ==> v == vars[0] || v in vars[1..];
      assert vars[0] in next && next <= r;
      r
  }

  /** JavaScript's `String.prototype.includes`: `needle` occurs in `s`. */
  predicate Includes(s: string, needle: string): (found: bool)
    ensures needle <= s ==> found
    ensures found ==> |needle| <= |s|
  {
    assert s[0..] == s;
    exists i :: 0 <= i <= |s| && needle <= s[i..]
  }

  /** addEnvVars on a loaded manifest. A falsy envCheck is first replaced by
      an empty array. A string envCheck answers `includes` by substring search
      and has no `push`, so the first name it does not contain throws; any
      other non-array has no `includes`, so the first name throws. A throw
      happens before the manifest is saved. */
  function AddEnvVars(m: Manifest, vars: seq<string>): (r: Result<Manifest, Failure>)
    ensures r.Ok? ==> r.value.others == m.others
    ensures r.Ok? && m.envCheck.List? ==> r.value.envCheck.List? && m.envCheck.names <= r.value.envCheck.names
    ensures r.Ok? ==> forall v :: v in vars ==> (r.value.envCheck.List? && v in r.value.envCheck.names) || (r.value.envCheck.Str? && Includes(r.value.envCheck.text, v))
    ensures r.Err? <==> Truthy(m.envCheck) && !m.envCheck.List? && exists v :: v in vars && !(m.envCheck.Str? && Includes(m.envCheck.text, v))
    ensures r.Err? ==> r.error == EnvCheckNotAList
    ensures r.Ok? && !Truthy(m.envCheck) ==> r.value.envCheck == List(Merge([], vars))
    ensures r.Ok? && m.envCheck.List? ==> r.value.envCheck == List(Merge(m.envCheck.names, vars))
    ensures r.Ok? && Truthy(m.envCheck) && !m.envCheck.List? ==> r.value == m
  {
    var started := Ok(m.(envCheck := List(Merge([], vars))));
    match m.envCheck
    case Unset => started
    case List(names) => Ok(m.(envCheck := List(Merge(names, vars))))
    case Str(s) =>
      if s == [] then started
      else if forall v :: v in vars ==> Includes(s, v) then Ok(m)
      else Err(EnvCheckNotAList)
    case Other =>
      if vars == [] then Ok(m) else assert vars[0] in vars; Err(EnvCheckNotAList)
  }

  /** Names already tracked are skipped: merging only names that are present
      changes nothing. */
  lemma {:induction false} MergePresent(tracked: seq<string>, vars: seq<string>)
    requires forall v :: v in vars ==> v in tracked
    ensures Merge(tracked, vars) == tracked
    decreases |vars|
  {
    if vars != [] {
      assert vars[0] in tracked;
      MergePresent(tracked, vars[1..]);
    }
  }

  /** Running the same merge a second time leaves the list unchanged. */
  lemma {:induction false} MergeIdempotent(tracked: seq<string>, vars: seq<string>)
    ensures Merge(Merge(tracked, vars), vars) == Merge(tracked, vars)
  {
    MergePresent(Merge(tracked, vars), vars);
  }

  /** A successful addEnvVars repeated with the same names succeeds again and
      leaves the manifest as the first call left it. */
  lemma AddEnvVarsIdempotent(m: Manifest, vars: seq<string>)
    requires AddEnvVars(m, vars).Ok?
    ensures AddEnvVars(AddEnvVars(m, vars).value, vars) == AddEnvVars(m, vars)
  {
    match m.envCheck
    case Unset => MergeIdempotent([], vars);
    case List(names) => MergeIdempotent(names, vars);
    case Str(s) => if s == [] { MergeIdempotent([], vars); }
    case Other =>
  }

  /** Adding `a` and then `b` in two invocations gives the same list as adding
      `a + b` in one. */
  lemma {:induction false} MergeConcat(tracked: seq<string>, a: seq<string>, b: seq<string>)
    ensures Merge(tracked, a + b) == Merge(Merge(tracked, a), b)
    decreases |a|
  {
    if a == [] {
      assert a + b == b;
    } else {
      assert (a + b)[0] == a[0];
      assert (a + b)[1..] == a[1..] + b;
      var next := if a[0] in tracked then tracked else tracked + [a[0]];
      MergeConcat(next, a[1..], b);
    }
  }

  /** Names that are all new and pairwise distinct are appended as given. */
  lemma {:induction false} MergeFresh(tracked: seq<string>, vars: seq<string>)
    requires NoDuplicates(vars)
    requires forall v :: v in vars ==> v !in tracked
    ensures Merge(tracked, vars) == tracked + vars
    decreases |vars|
  {
    if vars != [] {
      var next := tracked + [vars[0]];
      FreshTail(tracked, vars);
      assert vars[0] !in tracked;
      calc {
        Merge(tracked, vars);
        Merge(next, vars[1..]);
        { MergeFresh(next, vars[1..]); }
        next + vars[1..];
        { assert vars == [vars[0]] + vars[1..]; }
        tracked + vars;
      }
    }
  }

  /** After the first of some fresh distinct names is tracked, the remaining
      names are still fresh and distinct. */
  lemma FreshTail(tracked: seq<string>, vars: seq<string>)
    requires vars != [] && NoDuplicates(vars)
    requires forall v :: v in vars ==> v !in tracked
    ensures NoDuplicates(vars[1..])
    ensures forall v :: v in vars[1..] ==> v !in tracked + [vars[0]]
  {
    var rest := vars[1..];
    forall i, j | 0 <= i < j < |rest| ensures rest[i] != rest[j] {
      assert rest[i] == vars[i + 1] && rest[j] == vars[j + 1];
    }
    forall v | v in rest ensures v !in tracked + [vars[0]] {
      var j :| 0 <= j < |rest| && rest[j] == v;
      assert vars[j + 1] == v;
    }
  }
}

=== FILE: scenarios.dfy ===
/** Worked examples of the tool's behaviour, proved
    about the model for every input of the shape each one describes. */
module Scenarios {
  import opened Common
  import opened Text
  import opened ManifestStore
  import opened EnvFile
  import opened Checker
  import opened Cli

  /** A file of a comment line followed by one assignment yields the
      assigned name alone. */
  lemma NamesOfCommentedFile(comment: string, name: string, value: string, text: string)
    requires comment != [] && comment[0] == '#' && '\n' !in comment
    requires Readable(name) && '\n' !in name && '\n' !in value
    requires text == comment + "\n" + (name + "=" + value)
    ensures Names(text) == [name]
  {
    NamesOfFirstLine(comment, name + "=" + value);
    NamesOfLastLine(name + "=" + value);
    AssignmentLine(name, value);
  }

  /** `--add` with no names fails before the manifest is loaded or written. */
  lemma AddWithoutNames(w: World, env: map<string, string>, reply: string -> string)
    ensures Run(["--add"], w, env, reply) == Outcome(1, Some(NoVariablesProvided), w)
  {
  }

  /** Adding a name twice in one invocation tracks it once. */
  lemma AddTwiceTracksOnce(m: Manifest, name: string, env: map<string, string>,
                           reply: string -> string)
    requires m.envCheck == List([])
    ensures Run(["--add", name, name], World(Some(m), None), env, reply).world.manifest
         == Some(m.(envCheck := List([name])))
  {
    var twice := [name, name];
    assert ["--add", name, name] == ["--add"] + twice;
    AddMerges(World(Some(m), None), twice, env, reply);
    var single := [name];
    assert twice[1..] == single && [] + single == single;
    assert Merge([], twice) == Merge(single, single);
    MergePresent(single, single);
  }

  /** With every tracked variable set, a check prompts for nothing and
      writes nothing. */
  lemma CheckNothingMissing(m: Manifest, envFile: Option<string>, env: map<string, string>,
                            reply: string -> string)
    requires m.envCheck.List? && forall n :: n in m.envCheck.names ==> IsSet(env, n)
    ensures var w := World(Some(m), envFile); Run([], w, env, reply) == Outcome(0, None, w)
  {
  }

  /** A tracked name that the environment lacks but that every object
      inherits, such as `toString`, reads as set: the check prompts for
      nothing and writes nothing. */
  lemma CheckInheritedName(m: Manifest, envFile: Option<string>, env: map<string, string>,
                           reply: string -> string)
    requires m.envCheck == List(["toString"]) && "toString" !in env
    ensures var w := World(Some(m), envFile); Run([], w, env, reply) == Outcome(0, None, w)
  {
    assert "toString" in InheritedNames;
    CheckNothingMissing(m, envFile, env, reply);
  }

  /** A manifest without an envCheck array stops the check with an error
      before any prompt, and nothing is written. */
  lemma CheckWithoutConfiguration(m: Manifest, envFile: Option<string>,
                                  env: map<string, string>, reply: string -> string)
    requires !m.envCheck.List?
    ensures var w := World(Some(m), envFile);
            Run([], w, env, reply) == Outcome(1, Some(NoEnvCheckConfigured), w)
  {
  }

  /** The answers "1" and "a b" for X and Y as lines: the second is quoted. */
  lemma AnswerLines(reply: string -> string)
    requires reply("X") == "1" && reply("Y") == "a b"
    ensures FormatLines(["X", "Y"], reply) == ["X=1", "Y=\"a b\""]
  {
    assert HasWhiteSpace("a b") by {
      assert "a b"[1] == ' ';
    }
    assert !HasWhiteSpace("1");
    assert FormatEntry("X", "1") == "X=1";
    assert FormatEntry("Y", "a b") == "Y=\"a b\"";
    var lines := FormatLines(["X", "Y"], reply);
    assert lines[0] == "X=1" && lines[1] == "Y=\"a b\"";
  }

  /** Two missing variables answered "1" and "a b" are appended in manifest
      order, the second one quoted. */
  lemma CheckAppendsAnswers(prior: string, reply: string -> string)
    requires reply("X") == "1" && reply("Y") == "a b"
    ensures Check(List(["X", "Y"]), map[], prior, reply)
         == Appended(["X", "Y"], AppendBlock(prior, ["X=1", "Y=\"a b\""]))
  {
    MissingAllUnset(["X", "Y"], map[]);
    DedupDistinct(["X", "Y"]);
    AnswerLines(reply);
  }

  /** The block for those two answers, character by character. */
  lemma AnswerBlockText(prior: string)
    ensures AppendBlock(prior, ["X=1", "Y=\"a b\""])
         == prior + "\n#Auto GEN by envCheck\nX=1\nY=\"a b\"\n"
  {
    var lines := ["X=1", "Y=\"a b\""];
    assert lines[1..] == ["Y=\"a b\""];
    assert Join(lines, '\n') == "X=1" + "\n" + "Y=\"a b\"";
    assert "\n" + Marker + "\n" + ("X=1" + "\n" + "Y=\"a b\"") + "\n"
        == "\n#Auto GEN by envCheck\nX=1\nY=\"a b\"\n";
  }

  /** Syncing a file of a comment and one assignment into a manifest
      without envCheck tracks exactly the assigned name. */
  lemma SyncExample(others: map<string, string>, comment: string, name: string, value: string,
                    text: string)
    requires comment != [] && comment[0] == '#' && '\n' !in comment
    requires Readable(name) && '\n' !in name && '\n' !in value
    requires text == comment + "\n" + (name + "=" + value)
    ensures var w := World(Some(Manifest(Unset, others)), Some(text));
            Run(["--sync"], w, map[], _ => []).world.manifest == Some(Manifest(List([name]), others))
  {
    NamesOfCommentedFile(comment, name, value, text);
    SyncIntoUnset(others, text, map[], _ => []);
  }
}

=== FILE: text.dfy ===
/** The pieces of JavaScript's string library the tool relies on: the `\s`
    character class, `String.prototype.trim`, `split` on one character and
    `Array.prototype.join`. Strings are sequences of Unicode scalar values. */
module Text {

  /** A character of JavaScript's WhiteSpace or LineTerminator productions:
      the set matched by the regular expression `\s` and removed by `trim()`
      (tab, line feed, vertical tab, form feed, carriage return, the space
      separators of Unicode category Zs, the line and paragraph separators and
      the byte order mark). */
  predicate IsWhitespace(c: char) {
    || c == '\t' || c == '\n' || c == '\U{B}' || c == '\U{C}' || c == '\r'
    || c == ' ' || c == '\U{A0}' || c == '\U{1680}'
    || ('\U{2000}' <= c <= '\U{200A}')
    || c == '\U{2028}' || c == '\U{2029}' || c == '\U{202F}' || c == '\U{205F}'
    || c == '\U{3000}' || c == '\U{FEFF}'
  }

  /** `/\s/.test(s)`: some character of `s` is whitespace. */
  function HasWhiteSpace(s: string): (r: bool)
    ensures r <==> exists i :: 0 <= i < |s| && IsWhitespace(s[i])
  {
    if s == [] then false
    else if IsWhitespace(s[0]) then true
    else
      assert forall i :: 0 < i < |s| ==> s[i] == s[1..][i - 1];
      HasWhiteSpace(s[1..])
  }

  /** `s` with its leading whitespace removed. */
  function TrimStart(s: string): (r: string)
    ensures |r| <= |s| && r == s[|s| - |r|..]
    ensures forall i :: 0 <= i < |s| - |r| ==> IsWhitespace(s[i])
    ensures r != [] ==> !IsWhitespace(r[0])
  {
    if s != [] && IsWhitespace(s[0]) then TrimStart(s[1..]) else s
  }

  /** `s` with its trailing whitespace removed. */
  function TrimEnd(s: string): (r: string)
    ensures |r| <= |s| && r == s[..|r|]
    ensures forall i :: |r| <= i < |s| ==> IsWhitespace(s[i])
    ensures r != [] ==> !IsWhitespace(r[|r| - 1])
  {
    if s != [] && IsWhitespace(s[|s| - 1]) then TrimEnd(s[..|s| - 1]) else s
  }

  /** `s.trim()`: the text between the leading and the trailing whitespace.
      It is empty exactly when every character of `s` is whitespace. */
  function Trim(s: string): (r: string)
    ensures r == [] <==> forall i :: 0 <= i < |s| ==> IsWhitespace(s[i])
    ensures r != [] ==> !IsWhitespace(r[0]) && !IsWhitespace(r[|r| - 1])
  {
    TrimBlank(s);
    TrimEnd(TrimStart(s))
  }

  /** Trimming leaves nothing exactly when every character is whitespace. */
  lemma TrimBlank(s: string)
    ensures TrimEnd(TrimStart(s)) == [] <==> forall i :: 0 <= i < |s| ==> IsWhitespace(s[i])
  {
    var front := TrimStart(s);
    var k := |s| - |front|;
    var r := TrimEnd(front);
    if r == [] {
      forall i | 0 <= i < |s| ensures IsWhitespace(s[i]) {
        if k <= i {
          assert s[i] == front[i - k];
        }
      }
    } else {
      assert r[0] == front[0] && s[k] == front[0];
    }
  }

  /** `parts.join(sep)`: the parts with one `sep` between neighbours. */
  function Join(parts: seq<string>, sep: char): (s: string)
    ensures parts != [] ==> parts[0] <= s
  {
    if parts == [] then []
    else if |parts| == 1 then parts[0]
    else parts[0] + [sep] + Join(parts[1..], sep)
  }

  /** `s.split(sep)`: the maximal runs of `s` free of `sep`, including the
      empty runs before, between and after separators. */
  function Split(s: string, sep: char): (parts: seq<string>)
    ensures |parts| >= 1
    ensures forall i :: 0 <= i < |parts| ==> sep !in parts[i]
    ensures Join(parts, sep) == s
  {
    if s == [] then [[]]
    else
      var rest := Split(s[1..], sep);
      if s[0] == sep then
        assert s == [sep] + s[1..];
        [[]] + rest
      else
        assert s == [s[0]] + s[1..];
        [[s[0]] + rest[0]] + rest[1..]
  }

  /** Joining two non-empty lists of parts puts one separator between them. */
  lemma {:induction false} JoinAppend(p: seq<string>, q: seq<string>, sep: char)
    requires p != [] && q != []
    ensures Join(p + q, sep) == Join(p, sep) + [sep] + Join(q, sep)
  {
    if |p| == 1 {
      assert (p + q)[1..] == q;
    } else {
      assert (p + q)[1..] == p[1..] + q;
      JoinAppend(p[1..], q, sep);
    }
  }

  /** Splitting undoes joining when no part holds the separator. */
  lemma {:induction false} SplitJoin(parts: seq<string>, sep: char)
    requires parts != []
    requires forall i :: 0 <= i < |parts| ==> sep !in parts[i]
    ensures Split(Join(parts, sep), sep) == parts
  {
    if |parts| == 1 {
      SplitNoSeparator(parts[0], sep);
    } else {
      var rest := parts[1..];
      SplitJoin(rest, sep);
      SplitPrefixed(parts[0], Join(rest, sep), sep);
    }
  }

  /** A text without the separator is a single part. */
  lemma {:induction false} SplitNoSeparator(s: string, sep: char)
    requires sep !in s
    ensures Split(s, sep) == [s]
  {
    if s != [] {
      SplitNoSeparator(s[1..], sep);
    }
  }

  /** A separator-free head followed by the separator starts a new part. */
  lemma {:induction false} SplitPrefixed(head: string, tail: string, sep: char)
    requires sep !in head
    ensures Split(head + [sep] + tail, sep) == [head] + Split(tail, sep)
  {
    if head != [] {
      assert (head + [sep] + tail)[1..] == head[1..] + [sep] + tail;
      SplitPrefixed(head[1..], tail, sep);
      assert head[0] != sep;
      assert [head[0]] + head[1..] == head;
    } else {
      assert (head + [sep] + tail)[1..] == tail;
    }
  }

  /** Splitting two texts joined by the separator gives the parts of each. */
  lemma {:induction false} SplitConcat(a: string, b: string, sep: char)
    ensures Split(a + [sep] + b, sep) == Split(a, sep) + Split(b, sep)
  {
    var parts := Split(a, sep) + Split(b, sep);
    JoinAppend(Split(a, sep), Split(b, sep), sep);
    SplitJoin(parts, sep);
  }
}
